=== FILE: README.md ===
# Pantry app logic in Dafny

This project models the deterministic logic of a grocery-pantry web app.
The app is a React interface built from six components, each holding a
small piece of state logic over a list of grocery records:

- **Pantry** (`pantry.dfy`) classifies every item by freshness, filters the
  list by name and category, builds the category drop-down, and deletes,
  edits or appends items.
- **Dashboard** (`dashboard.dfy`) counts all items, items expiring soon,
  items expiring today and expired items. It also lists the first five
  items expiring soon, with a "day/days" label. Two of its three tests
  differ from the pantry's:
  - "expired" compares timestamps;
  - "today" compares calendar days;
  - only "soon" reuses the ceiling day difference, and it agrees with the
    pantry's "expiring soon".
- **GroceryForm** (`grocery_form.dfy`) loads `initialData` into five text
  fields. Its submit guard requires a name, a category and an expiration
  date, and a successful submit clears the form.
- **AddItems** (`add_items.dfy`) appends one item from the form, or every
  item a receipt scan delivered, and handles the two Cancel buttons.
- **Recipes** (`recipes.dfy`) picks the availability badge colour of each
  recipe and decides whether "Generate Recipes" is enabled.
- **RecipeChat** (`recipe_chat.dfy`) keeps the message log. A blank message
  is refused. Otherwise a user message and a bot reply are appended, with
  ids `length + 1` and `length + 2`.

Three supporting modules hold what the components share:

- `groceries.dfy`: the `Item` record, the `Calendar` abstraction of the date
  library, and the ceiling day difference.
- `sequences.dfy`: `Array.prototype.filter`, the first-insertion order of a
  `Set`, and subsequences.
- `text.dfy`: `toLowerCase`, `includes` and `trim`.

Timestamps are integer milliseconds. `new Date(text)` is the `parse` field of
a `Calendar` value, where `None` stands for an Invalid Date (NaN). The local
calendar day (`toDateString`) is its `dayOf` field. The current time is a
parameter `now`.

The model states several behaviours of the code as written:

- **Invalid dates.** An expiration that does not parse makes every
  comparison in `getExpirationStatus` false. The pantry therefore shows such
  an item as fresh, while the dashboard counts it in no bucket at all.
- **Expired versus expires today.** An item that expired less than a day
  ago is "Expires Today" in the pantry (the ceiling rounds up to 0). The
  dashboard counts the same item as expired
  (`Dashboard.ExpiredDisagreesWithPantry`).
- **The dashboard example depends on the time of day.** Take four items
  dated 2024-06-01, -02, -03 and -10, with the browser in the UTC time zone.
  At exactly midnight UTC on 2024-06-02 they give one expired item, one due
  today and one expiring soon (`Dashboard.SummaryAtMidnight`). Later the
  same day, the item due today has also passed its timestamp and is counted
  as expired too (`Dashboard.SummaryAtNoon`). In another time zone the date
  strings still parse to UTC midnight, so at local midnight the counts can
  differ again.
- **A stale edit index.** An edit remembers a list position, not the item.
  Deleting an earlier item while the form is open makes the save overwrite
  the item that moved into that position, or append if none did
  (`Pantry.StaleEditIndex`). Deleting two earlier items leaves the position
  more than one past the end (`Pantry.TwoDeletesStrandEditIndex`). The save
  then writes into a sparse array with a hole. The dashboard's total counts
  the hole as an item, while its filters and the pantry's filter skip it.
  The next spread of the list turns the hole into a real `undefined`, and
  reading `item.category` or `item.expirationDate` from it throws. The model
  does not follow this path past the stranded index.
- **The badge with no ingredients.** `getAvailabilityColor` with a total of
  zero divides by zero. It gives yellow when something is available
  (Infinity) and orange when nothing is (NaN).

## Model

| member | source | states |
|---|---|---|
| Groceries.DiffDays | src/components/Pantry.tsx:32-33 | the ceiling day difference `d` is the one whole number with `(d-1)` days `< exp - now <= d` days |
| Groceries.DiffDaysMonotone | src/components/Pantry.tsx:33 | a later expiration never gives a smaller day difference |
| Groceries.DiffDaysWithinADay | src/components/Pantry.tsx:32-33 | up to one day in the past counts as 0 days; up to one day ahead counts as 1 day |
| Text.LowerChar | src/components/Pantry.tsx:24 | upper-case ASCII letters move to lower case; every other character is kept |
| Text.ToLower | src/components/Pantry.tsx:24 | lower-casing keeps the length and maps each character on its own |
| Text.ContainsEmpty | src/components/Pantry.tsx:24 | every name includes the empty search term; `includes` is the predicate `Text.Contains`, an occurrence of the term as a contiguous block at some position |
| Text.ToLowerIdempotent | src/components/Pantry.tsx:24 | lower-casing twice is lower-casing once |
| Text.TrimStart | src/components/RecipeChat.tsx:25 | the result is a suffix, the removed prefix is all white space, and the result starts with a non-space |
| Text.TrimEnd | src/components/RecipeChat.tsx:25 | the result is a prefix, the removed suffix is all white space, and the result ends with a non-space |
| Text.Trim | src/components/RecipeChat.tsx:25 | a non-empty trimmed string starts and ends with a non-space character |
| Text.TrimCutsBlankEnds | src/components/RecipeChat.tsx:25 | `trim()` returns a contiguous block of the input with only white space before and after it |
| Text.TrimEmptyIffBlank | src/components/RecipeChat.tsx:25 | `trim()` is empty exactly when the input is made only of ECMAScript white space and line terminators |
| Sequences.Filter | src/components/Pantry.tsx:23-27 | `filter` keeps only passing elements, loses no passing element, and never grows the list |
| Sequences.FilterIsSubsequence | src/components/Pantry.tsx:23-27 | `filter` keeps the original order |
| Sequences.FilterCounts | src/components/Pantry.tsx:23-27 | each passing value occurs as often as in the input; failing values do not occur |
| Sequences.FilterKeepsAll | src/components/Pantry.tsx:23-27 | when every element passes, `filter` returns the list unchanged |
| Sequences.FilterLengthIsCount | src/components/Dashboard.tsx:25 | the filtered length equals an independent count of the passing elements |
| Sequences.FilterDisjointLengths | src/components/Dashboard.tsx:17-25 | two tests that never both hold keep at most as many items together as the list has |
| Sequences.Dedup | src/components/Pantry.tsx:21 | the `Set` of categories has no duplicates and holds exactly the values of the input |
| Sequences.DedupSnoc | src/components/Pantry.tsx:21 | adding a value to a `Set` appends it only if it is new |
| Sequences.DedupFirstAppearanceOrder | src/components/Pantry.tsx:21 | the `Set` lists values in the order of their first appearance in the input |
| Pantry.ExpirationStatus | src/components/Pantry.tsx:29-39 | expired iff at least a day past; today iff less than a day past or exactly now; soon iff at most three days ahead; fresh otherwise, and for an Invalid Date |
| Pantry.StatusByDiffDays | src/components/Pantry.tsx:33-38 | the status is the bucket of the day difference: `<0`, `==0`, `1..3`, `>3` |
| Pantry.LessThanADayPastIsToday | src/components/Pantry.tsx:32-36 | an expiration less than a full day in the past is "Expires Today", not "Expired" |
| Pantry.StatusMonotone | src/components/Pantry.tsx:33-38 | for a fixed `now`, a later expiration is never more urgent (expired < today < soon < fresh) |
| Pantry.FilteredGroceries | src/components/Pantry.tsx:23-27 | with the filter callback as the predicate `Pantry.Matches` (Pantry.tsx:24-26: the lower-cased name contains the lower-cased term, and the category is the chosen one or the choice is "all"), the shown items are an order-preserving subsequence; every shown item matches the name and category; every matching item is shown, as often as it occurs |
| Pantry.UnfilteredShowsAll | src/components/Pantry.tsx:23-27 | an empty search with category "all" shows the whole list unchanged |
| Pantry.CategoriesOf | src/components/Pantry.tsx:21 | one category per item, at the item's position |
| Pantry.CategoryOptions | src/components/Pantry.tsx:21 | collecting categories into a `Set` one item at a time gives exactly "all" followed by the reference first-appearance list `Dedup` of the item categories |
| Pantry.CategoryOptionsFacts | src/components/Pantry.tsx:21 | that drop-down starts with "all"; after it, every item category appears once, nothing else appears, and the order is first appearance; no option repeats unless an item's category is literally "all" |
| Pantry.OptionsInOrder | src/components/Pantry.tsx:21 | the options after "all" follow first appearance in the list |
| Pantry.OptionsDistinct | src/components/Pantry.tsx:21 | with no category named "all", the options are pairwise distinct |
| Pantry.DeleteAt | src/components/Pantry.tsx:41-44 | an index inside the list removes exactly that element and keeps the others in order; any other index (such as -1) changes nothing |
| Pantry.AssignAt | src/components/Pantry.tsx:53-54 | assigning inside the list replaces exactly that position; assigning at the length appends |
| Pantry.OpenAddForm | src/components/Pantry.tsx:88-92 | "Add Item" opens the form with no edit target and leaves the list alone |
| Pantry.HandleEdit | src/components/Pantry.tsx:46-49 | the edit target records the item and its position, and the form opens |
| Pantry.HandleDelete | src/components/Pantry.tsx:41-44 | an in-range delete removes exactly that item and keeps the rest in order; an out-of-range one changes nothing; the form state is kept |
| Pantry.HandleSave | src/components/Pantry.tsx:51-61 | without an edit target, the item is appended; in edit mode with a position inside the list, only that position changes and the length is kept; in edit mode with the position just past the end (left by a delete), the item is appended; the form closes either way |
| Pantry.HandleCancel | src/components/Pantry.tsx:109-112 | Cancel closes the form and forgets the edit; the list is untouched |
| Pantry.EditWithoutChangesKeepsList | src/components/Pantry.tsx:46-61 | editing a complete item and saving it unchanged leaves the list exactly as it was |
| Pantry.TwoDeletesStrandEditIndex | src/components/Pantry.tsx:41-61 | editing the last of three items and deleting the other two leaves an edit position the save can only reach by creating a sparse array |
| Pantry.StaleEditIndex | src/components/Pantry.tsx:41-61 | after a delete before the edited position, saving overwrites the next item or appends, and the edited item survives unchanged |
| Dashboard.Summarize | src/components/Dashboard.tsx:12-25 | with the three tests as the predicates `Dashboard.DueToday` (Dashboard.tsx:14: the expiration parses and falls on today's calendar day), `Dashboard.DueSoon` (Dashboard.tsx:17-21: the expiration parses and its ceiling day difference is 1..3) and `Dashboard.IsExpired` (Dashboard.tsx:25: the expiration parses and is strictly before `now`): the total is the list length; "soon" and "today" are order-preserving subsequences holding exactly the items that pass their test; the soon, today and expired counts each equal an independent count of the items passing that test, so duplicates count once per occurrence; each count is at most the total; expired and soon together never exceed the total |
| Dashboard.ExpiredNeverSoon | src/components/Dashboard.tsx:19-25 | no item both lies in the past and is one to three days ahead |
| Dashboard.Reminders | src/components/Dashboard.tsx:88-89 | the list shows the first `min(5, soon)` items expiring soon, in order; each `daysLeft` is that item's day difference and lies in 1..3 |
| Dashboard.DayUnit | src/components/Dashboard.tsx:97 | the unit always starts with "day" |
| Dashboard.DayUnitPlural | src/components/Dashboard.tsx:97 | the unit is "days" exactly when the count is not 1, and "day" exactly when it is 1 |
| Dashboard.SoonAgreesWithPantry | src/components/Dashboard.tsx:17-22 | the dashboard's "soon" is exactly the pantry's "expiring soon" status |
| Dashboard.ExpiredDisagreesWithPantry | src/components/Dashboard.tsx:25 | an item less than a day past is expired on the dashboard but "Expires Today" in the pantry |
| Dashboard.TodayIsCalendarDay | src/components/Dashboard.tsx:12-15 | "due today" depends only on the calendar day of the expiration |
| Dashboard.FilterOfFour | src/components/Dashboard.tsx:12-25 | how many of four items a filter keeps, item by item |
| Dashboard.SampleDates | src/components/Dashboard.tsx:13 | the four example dates parse to UTC midnight of 2024-06-01, -02, -03 and -10 |
| Dashboard.TestsAtMidnight | src/components/Dashboard.tsx:12-25 | at midnight on 2024-06-02, the example items pass the tests as expired, due today, expiring soon and none |
| Dashboard.TestsAtNoon | src/components/Dashboard.tsx:12-25 | at noon the same day, the item due today also passes the expired test |
| Dashboard.SummaryAtMidnight | src/components/Dashboard.tsx:12-25 | the example gives 4 items: 1 expired, 1 due today and 1 expiring soon |
| Dashboard.SummaryAtNoon | src/components/Dashboard.tsx:12-25 | the same example at noon counts 2 expired items |
| GroceryForm.CategoriesAreFixed | src/components/GroceryForm.tsx:34-37 | eleven distinct category names, "Fruits" first and "Other" last |
| GroceryForm.Load | src/components/GroceryForm.tsx:22-32 | no `initialData` keeps the form; otherwise each present non-empty field is copied, any other becomes "", and the purchase date falls back to today; extra fields such as `index` are dropped |
| GroceryForm.LoadItemRoundTrip | src/components/GroceryForm.tsx:22-31 | loading an existing item reproduces it field for field; only an empty purchase date becomes today |
| GroceryForm.LoadNothingIsEmpty | src/components/GroceryForm.tsx:22-31 | an object with no fields loads as the cleared form |
| GroceryForm.Submit | src/components/GroceryForm.tsx:39-51 | the guard is the predicate `GroceryForm.Complete` (GroceryForm.tsx:41); `onSave` is called iff name, category and expiration date are non-empty, with the form as it stood; the form is then cleared with today's purchase date; a refused submit changes nothing |
| GroceryForm.EditUnchangedSavesSameItem | src/components/GroceryForm.tsx:22-51 | loading a complete item and submitting it untouched saves that same item |
| GroceryForm.EmptyFormIsRefused | src/components/GroceryForm.tsx:41 | the cleared form can never be submitted |
| AddItems.HandleSave | src/components/AddItems.tsx:18-21 | the old list is a prefix, followed by exactly the new item; the panel closes |
| AddItems.AddScannedItems | src/components/AddItems.tsx:23-27 | the old list is a prefix, followed by exactly the scanned items in order; the scan buffer is empty and the panel closed |
| AddItems.CancelReceipt | src/components/AddItems.tsx:164-167 | receipt Cancel keeps the list, empties the scan buffer and closes the panel |
| AddItems.CancelManual | src/components/AddItems.tsx:116 | manual Cancel only closes the panel |
| AddItems.Step | src/components/AddItems.tsx:49-167 | no event on the screen ever removes or rewrites an item already in the list |
| AddItems.RunKeepsPrefix | src/components/AddItems.tsx:18-27 | after any sequence of events, the starting list is still a prefix of the list |
| Recipes.AvailabilityColor | src/components/Recipes.tsx:85-90 | for a positive total, green iff all ingredients are available; yellow iff not all but at least 70 %; orange otherwise; with a total of 0, yellow iff something is available |
| Recipes.ScaleCompare | src/components/Recipes.tsx:86-88 | multiplying by a positive total keeps `>=` and `==` |
| Recipes.PercentageAtLeast | src/components/Recipes.tsx:86-88 | a percentage reaches a bound iff `100 * available` reaches `bound * total` |
| Recipes.AvailabilityColorMatchesPercentage | src/components/Recipes.tsx:86-89 | for a positive total, the integer rule gives the badge of the exact percentage |
| Recipes.MoreAvailableNeverOrange | src/components/Recipes.tsx:85-90 | for a fixed total, more available ingredients never turn a green or yellow badge orange |
| Recipes.SampleRecipeBadges | src/components/Recipes.tsx:27-29 | the example recipes' counts give yellow for 3/4, orange for 2/4 and green for 4/4 |
| Recipes.PressGenerate | src/components/Recipes.tsx:109-111 | the button's enable condition is the predicate `Recipes.CanGenerate` (Recipes.tsx:111: not generating and the pantry is non-empty); generation starts iff none is running and the pantry is non-empty; a disabled press changes nothing |
| Recipes.Deliver | src/components/Recipes.tsx:79-82 | the delivered recipes replace the list and the button is enabled again |
| Recipes.Badges | src/components/Recipes.tsx:136-143 | one badge per recommendation, in list order, each from that recipe's counts |
| RecipeChat.Open | src/components/RecipeChat.tsx:15-22 | the chat opens with one bot message with id 1 and an empty input |
| RecipeChat.SetInput | src/components/RecipeChat.tsx:158 | typing or choosing a suggestion changes only the input |
| RecipeChat.SendMessage | src/components/RecipeChat.tsx:24-49 | blank input changes nothing; otherwise the log keeps its prefix and grows by exactly the untrimmed user message with id `n+1` and a bot reply with id `n+2` drawn from the four canned texts; the input is cleared |
| RecipeChat.SendKeepsIds | src/components/RecipeChat.tsx:27-47 | sending keeps every id equal to its 1-based position |
| RecipeChat.OpenIdsArePositions | src/components/RecipeChat.tsx:15-21 | the opening log numbers its message by position |
| RecipeChat.ConversationIdsArePositions | src/components/RecipeChat.tsx:15-48 | from the opening log, after any conversation, every id is the message's 1-based position |
| RecipeChat.ConversationOnlyAppends | src/components/RecipeChat.tsx:47 | the log never shrinks and never rewrites a message already in it |

## Left out

- Rendering, CSS classes other than the badge colour, icons, labels,
  navigation, `Header.tsx` and `src/pages/Index.tsx`: these are
  presentation. The seed data in `Index.tsx` is not part of this model.
- The `setTimeout` delays of the receipt scan and the recipe generator. The
  scan is an event `ScanDelivered` that can arrive at any time, and the
  generator is the `Deliver` call. The canned payloads are data, not logic.
- `Math.random`. The bot reply is a parameter `pick < 4`. The random
  "Available / Need to buy" ingredient badge of the chat is not modelled.
- Date parsing and locale formatting (`new Date`, `toDateString`,
  `toLocaleDateString`, `toISOString().split('T')`). They are the `Calendar`
  parameter and the `today` string parameter.
- Groceries.DiffDays: exact integer ceiling division; the floating-point
  division of `Math.ceil` can round differently for differences too large
  to be a real pantry date.
- Text.ToLower: lower-cases ASCII letters only, not the full Unicode case
  mapping of `toLowerCase`.
- Recipes.AvailabilityColor: compares `100 * available` with `70 * total` by
  exact cross-multiplication. Floating-point rounding of `available / total
  * 100` is not modelled.
- Pantry.HandleEdit: takes the index directly. The component passes
  `groceries.indexOf(item)` for an item object taken from the list itself,
  and that lookup compares objects by reference. Value equality would give
  a different answer for duplicate items.
- Pantry.AssignAt: requires the index to lie inside the list or just past
  its end. A larger index, reachable as `Pantry.TwoDeletesStrandEditIndex`
  shows, makes JavaScript create a sparse array with holes, which is not
  modelled.
- Pantry.HandleSave: requires the recorded edit index to lie inside the list
  or just past its end. A larger index would make JavaScript create a
  sparse array with holes, which is not modelled.
- RecipeChat.SendMessage: decides blankness with `IsBlank`, which
  `Text.TrimEmptyIffBlank` proves equal to `!inputValue.trim()`.
- Ingredient matching and recipe ranking: the code has none. The
  available/total counts are fixed in the recipe data.
- Stable item handles and validated batch insert: the code has neither.
  `addScannedItems` appends without checks, and edits refer to positions.

=== FILE: add_items.dfy ===
/**
  The "Add Items" screen: manual entry through the form and adding the
  items a receipt scan delivered.
 */
module AddItems {
  import opened Groceries

  /** The two entry methods that open a panel (`activeMethod`). */
  datatype Method = Manual | Receipt

  datatype AddState = AddState(
    groceries: seq<Item>,
    activeMethod: Option<Method>,
    scannedItems: seq<Item>)

  /** `handleSave`: append the saved item and close the panel. */
  function HandleSave(s: AddState, newItem: Item): (r: AddState)
    ensures |r.groceries| == |s.groceries| + 1
    ensures r.groceries[..|s.groceries|] == s.groceries
    ensures r.groceries[|s.groceries|] == newItem
    ensures r.activeMethod.None? && r.scannedItems == s.scannedItems
  {
    AddState(s.groceries + [newItem], None, s.scannedItems)
  }

  /** `addScannedItems`: append every scanned item in order, with no
      checks, then empty the scan buffer and close the panel. */
  function AddScannedItems(s: AddState): (r: AddState)
    ensures |r.groceries| == |s.groceries| + |s.scannedItems|
    ensures r.groceries[..|s.groceries|] == s.groceries
    ensures r.groceries[|s.groceries|..] == s.scannedItems
    ensures r.activeMethod.None? && r.scannedItems == []
  {
    AddState(s.groceries + s.scannedItems, None, [])
  }

  /** The receipt panel's Cancel button. */
  function CancelReceipt(s: AddState): (r: AddState)
    ensures r.groceries == s.groceries && r.activeMethod.None? && r.scannedItems == []
  {
    AddState(s.groceries, None, [])
  }

  /** The form's Cancel button in manual mode: only the panel closes. */
  function CancelManual(s: AddState): (r: AddState)
    ensures r.groceries == s.groceries && r.scannedItems == s.scannedItems && r.activeMethod.None?
  {
    s.(activeMethod := None)
  }

  /** The user's actions on the screen and the scan collaborator's delivery
      (the `setTimeout` callback, which fires whatever the panel shows). */
  datatype Event =
    | ChooseManual
    | ChooseReceipt
    | ScanDelivered(items: seq<Item>)
    | SaveManual(item: Item)
    | AddAll
    | Cancel

  /** One event. A button that is not on screen cannot be pressed, so an
      event whose control is not rendered in the current state changes
      nothing: the method cards show only with no panel open, the form only
      in manual mode, "Add All Items" and the receipt Cancel only once the
      scan has produced items. */
  function Step(s: AddState, e: Event): (r: AddState)
    ensures IsPrefixOf(s.groceries, r.groceries)
  {
    match e
    case ChooseManual => if s.activeMethod.None? then s.(activeMethod := Some(Manual)) else s
    case ChooseReceipt => if s.activeMethod.None? then s.(activeMethod := Some(Receipt)) else s
    case ScanDelivered(items) => s.(scannedItems := items)
    case SaveManual(item) => if s.activeMethod == Some(Manual) then HandleSave(s, item) else s
    case AddAll =>
      if s.activeMethod == Some(Receipt) && |s.scannedItems| > 0 then AddScannedItems(s) else s
    case Cancel =>
      if s.activeMethod == Some(Manual) then CancelManual(s)
      else if s.activeMethod == Some(Receipt) && |s.scannedItems| > 0 then CancelReceipt(s)
      else s
  }

  /** `a` is an initial segment of `b`. */
  predicate IsPrefixOf(a: seq<Item>, b: seq<Item>)
  {
    |a| <= |b| && b[..|a|] == a
  }

  /** The state after a whole sequence of events. */
  function Run(s: AddState, events: seq<Event>): AddState
    decreases |events|
  {
    if |events| == 0 then s else Run(Step(s, events[0]), events[1..])
  }

  /** The screen only ever adds: whatever happens, the list it started with
      is still the beginning of the list, item for item. */
  lemma {:induction false} RunKeepsPrefix(s: AddState, events: seq<Event>)
    ensures IsPrefixOf(s.groceries, Run(s, events).groceries)
    decreases |events|
  {
    if |events| > 0 {
      var next := Step(s, events[0]);
      RunKeepsPrefix(next, events[1..]);
      var final := Run(next, events[1..]).groceries;
      assert final[..|s.groceries|] == final[..|next.groceries|][..|s.groceries|];
    }
  }
}

=== FILE: dashboard.dfy ===
/**
  The dashboard: the four counters and the "Items Expiring Soon" list.
  Its three rules differ from the pantry's in the code as written:
  "expired" compares timestamps, "today" compares calendar days, and only
  "soon" reuses the ceiling day difference.
 */
module Dashboard {
  import opened Groceries
  import opened Sequences
  import Pantry

  /** `expDate.toDateString() === today.toDateString()`. An Invalid Date
      prints as "Invalid Date", which never equals today's date. */
  predicate DueToday(cal: Calendar, now: int, exp: Option<int>)
  {
    exp.Some? && cal.dayOf(exp.value) == cal.dayOf(now)
  }

  /** `diffDays > 0 && diffDays <= 3` with the ceiling day difference;
      false for NaN. */
  predicate DueSoon(now: int, exp: Option<int>)
  {
    exp.Some? && 0 < DiffDays(exp.value, now) <= 3
  }

  /** `new Date(item.expirationDate) < today`; false for NaN. */
  predicate IsExpired(now: int, exp: Option<int>)
  {
    exp.Some? && exp.value < now
  }

  /** The three tests as filter callbacks over items. */
  function SoonTest(cal: Calendar, now: int): Item -> bool
  {
    (item: Item) => DueSoon(now, cal.parse(item.expirationDate))
  }

  function TodayTest(cal: Calendar, now: int): Item -> bool
  {
    (item: Item) => DueToday(cal, now, cal.parse(item.expirationDate))
  }

  function ExpiredTest(cal: Calendar, now: int): Item -> bool
  {
    (item: Item) => IsExpired(now, cal.parse(item.expirationDate))
  }

  /** The dashboard figures. */
  datatype Summary = Summary(
    totalItems: nat,
    expiringSoon: seq<Item>,
    expiringToday: seq<Item>,
    expiredItems: nat)

  /** The counters and lists the dashboard derives from the grocery list. */
  function Summarize(cal: Calendar, now: int, groceries: seq<Item>): (s: Summary)
    ensures s.totalItems == |groceries|
    ensures IsSubsequence(s.expiringSoon, groceries)
    ensures forall i :: 0 <= i < |s.expiringSoon| ==>
              DueSoon(now, cal.parse(s.expiringSoon[i].expirationDate))
    ensures forall i :: 0 <= i < |groceries| && DueSoon(now, cal.parse(groceries[i].expirationDate))
              ==> groceries[i] in s.expiringSoon
    ensures IsSubsequence(s.expiringToday, groceries)
    ensures forall i :: 0 <= i < |s.expiringToday| ==>
              DueToday(cal, now, cal.parse(s.expiringToday[i].expirationDate))
    ensures forall i :: 0 <= i < |groceries| && DueToday(cal, now, cal.parse(groceries[i].expirationDate))
              ==> groceries[i] in s.expiringToday
    ensures |s.expiringSoon| == Count(SoonTest(cal, now), groceries)
    ensures |s.expiringToday| == Count(TodayTest(cal, now), groceries)
    ensures s.expiredItems == Count(ExpiredTest(cal, now), groceries)
    ensures |s.expiringSoon| <= s.totalItems && |s.expiringToday| <= s.totalItems
    ensures s.expiredItems + |s.expiringSoon| <= s.totalItems
  {
    var soon := SoonTest(cal, now);
    var today := TodayTest(cal, now);
    var expired := ExpiredTest(cal, now);
    FilterIsSubsequence(soon, groceries);
    FilterIsSubsequence(today, groceries);
    ExpiredNeverSoon(now, groceries);
    FilterDisjointLengths(expired, soon, groceries);
    FilterLengthIsCount(soon, groceries);
    FilterLengthIsCount(today, groceries);
    FilterLengthIsCount(expired, groceries);
    Summary(|groceries|, Filter(soon, groceries), Filter(today, groceries),
            |Filter(expired, groceries)|)
  }

  /** An item already past its expiration timestamp is never "expiring soon". */
  lemma ExpiredNeverSoon(now: int, groceries: seq<Item>)
    ensures forall cal: Calendar, i :: 0 <= i < |groceries| ==>
              !(IsExpired(now, cal.parse(groceries[i].expirationDate))
                && DueSoon(now, cal.parse(groceries[i].expirationDate)))
  {
  }

  /** One row of the "Items Expiring Soon" card. */
  datatype Reminder = Reminder(item: Item, daysLeft: int)

  /** `expiringSoon.slice(0, 5)` with each row's `daysLeft` recomputed. */
  function Reminders(cal: Calendar, now: int, groceries: seq<Item>): (r: seq<Reminder>)
    ensures var soon := Summarize(cal, now, groceries).expiringSoon;
      && |r| == (if |soon| < 5 then |soon| else 5)
      && forall i :: 0 <= i < |r| ==> r[i].item == soon[i]
    ensures forall i :: 0 <= i < |r| ==>
              && cal.parse(r[i].item.expirationDate).Some?
              && r[i].daysLeft == DiffDays(cal.parse(r[i].item.expirationDate).value, now)
              && 1 <= r[i].daysLeft <= 3
  {
    var soon := Summarize(cal, now, groceries).expiringSoon;
    var shown := if |soon| < 5 then soon else soon[..5];
    seq(|shown|, i requires 0 <= i < |shown| =>
      Reminder(shown[i], DiffDays(cal.parse(shown[i].expirationDate).value, now)))
  }

  /** The badge unit: `day${daysLeft !== 1 ? 's' : ''}`. */
  function DayUnit(daysLeft: int): (u: string)
    ensures 3 <= |u| && u[..3] == "day"
  {
    "day" + (if daysLeft != 1 then "s" else "")
  }

  /** The unit is plural exactly when the count is not one. */
  lemma DayUnitPlural(daysLeft: int)
    ensures DayUnit(daysLeft) == "days" <==> daysLeft != 1
    ensures DayUnit(daysLeft) == "day" <==> daysLeft == 1
  {
  }

  /** "Expiring soon" means the same on the dashboard and in the pantry. */
  lemma SoonAgreesWithPantry(now: int, exp: Option<int>)
    ensures DueSoon(now, exp) <==> Pantry.ExpirationStatus(exp, now) == Pantry.ExpiringSoon
  {
  }

  /** "Expired" does not: an item that passed its expiration less than a
      day ago is counted as expired by the dashboard while the pantry labels
      it "Expires Today". */
  lemma ExpiredDisagreesWithPantry(now: int, exp: int)
    requires now - MillisPerDay < exp < now
    ensures IsExpired(now, Some(exp))
    ensures Pantry.ExpirationStatus(Some(exp), now) == Pantry.ExpiresToday
  {
  }

  /** Whether an item is due today depends on its calendar day only, not on
      how many milliseconds separate it from `now`. */
  lemma TodayIsCalendarDay(cal: Calendar, now: int, exp1: int, exp2: int)
    requires cal.dayOf(exp1) == cal.dayOf(exp2)
    ensures DueToday(cal, now, Some(exp1)) == DueToday(cal, now, Some(exp2))
  {
  }

  /** A calendar whose days are UTC days and whose dates parse to UTC
      midnight, as `new Date("YYYY-MM-DD")` does in the UTC time zone. The
      four dates are 2024-06-01, -02, -03 and -10 (day 19876 is 2024-06-02). */
  function UtcCalendar(): Calendar
  {
    Calendar(
      (s: string) =>
        if s == "2024-06-01" then Some(19875 * MillisPerDay)
        else if s == "2024-06-02" then Some(19876 * MillisPerDay)
        else if s == "2024-06-03" then Some(19877 * MillisPerDay)
        else if s == "2024-06-10" then Some(19884 * MillisPerDay)
        else None,
      (t: int) => t / MillisPerDay)
  }

  function SampleGroceries(): seq<Item>
  {
    [ Item("Yogurt", "Dairy", "", "2024-06-01", ""),
      Item("Chicken Breast", "Meat", "", "2024-06-02", ""),
      Item("Bananas", "Fruits", "", "2024-06-03", ""),
      Item("Rice", "Grains", "", "2024-06-10", "") ]
  }

  /** How many of four items a filter keeps. */
  lemma FilterOfFour(p: Item -> bool, g: seq<Item>)
    requires |g| == 4
    ensures |Filter(p, g)| == (if p(g[0]) then 1 else 0) + (if p(g[1]) then 1 else 0)
                            + (if p(g[2]) then 1 else 0) + (if p(g[3]) then 1 else 0)
  {
    var t1, t2, t3 := g[1..], g[2..], g[3..];
    assert t1[1..] == t2 && t2[1..] == t3 && t3[1..] == [];
    FilterCons(p, g);
    FilterCons(p, t1);
    FilterCons(p, t2);
    FilterCons(p, t3);
  }

  /** The parsed expirations of the four sample items. */
  lemma SampleDates(g: seq<Item>)
    requires g == SampleGroceries()
    ensures UtcCalendar().parse(g[0].expirationDate) == Some(19875 * MillisPerDay)
    ensures UtcCalendar().parse(g[1].expirationDate) == Some(19876 * MillisPerDay)
    ensures UtcCalendar().parse(g[2].expirationDate) == Some(19877 * MillisPerDay)
    ensures UtcCalendar().parse(g[3].expirationDate) == Some(19884 * MillisPerDay)
  {
  }

  /** The three tests on the sample items at midnight on 2024-06-02. */
  lemma TestsAtMidnight(g: seq<Item>)
    requires g == SampleGroceries()
    ensures var cal, now := UtcCalendar(), 19876 * MillisPerDay;
      var soon, today, expired := SoonTest(cal, now), TodayTest(cal, now), ExpiredTest(cal, now);
      && !soon(g[0]) && !soon(g[1]) && soon(g[2]) && !soon(g[3])
      && !today(g[0]) && today(g[1]) && !today(g[2]) && !today(g[3])
      && expired(g[0]) && !expired(g[1]) && !expired(g[2]) && !expired(g[3])
  {
    SampleDates(g);
  }

  /** The three tests on the sample items at noon on 2024-06-02. */
  lemma TestsAtNoon(g: seq<Item>)
    requires g == SampleGroceries()
    ensures var cal, now := UtcCalendar(), 19876 * MillisPerDay + MillisPerDay / 2;
      var soon, today, expired := SoonTest(cal, now), TodayTest(cal, now), ExpiredTest(cal, now);
      && !soon(g[0]) && !soon(g[1]) && soon(g[2]) && !soon(g[3])
      && !today(g[0]) && today(g[1]) && !today(g[2]) && !today(g[3])
      && expired(g[0]) && expired(g[1]) && !expired(g[2]) && !expired(g[3])
  {
    SampleDates(g);
    var now := 19876 * MillisPerDay + MillisPerDay / 2;
    assert DiffDays(19877 * MillisPerDay, now) == 1;
    assert DiffDays(19876 * MillisPerDay, now) == 0;
  }

  /** At midnight on 2024-06-02 the four sample items give one expired, one
      due today and one expiring soon. */
  lemma SummaryAtMidnight()
    ensures
      var s := Summarize(UtcCalendar(), 19876 * MillisPerDay, SampleGroceries());
      && s.totalItems == 4 && s.expiredItems == 1
      && |s.expiringToday| == 1 && |s.expiringSoon| == 1
  {
    var cal := UtcCalendar();
    var now := 19876 * MillisPerDay;
    var g := SampleGroceries();
    TestsAtMidnight(g);
    FilterOfFour(SoonTest(cal, now), g);
    FilterOfFour(TodayTest(cal, now), g);
    FilterOfFour(ExpiredTest(cal, now), g);
  }

  /** Later on the same day the item due today has also passed its
      timestamp, so it is counted both as due today and as expired. */
  lemma SummaryAtNoon()
    ensures
      var s := Summarize(UtcCalendar(), 19876 * MillisPerDay + MillisPerDay / 2, SampleGroceries());
      && s.totalItems == 4 && s.expiredItems == 2
      && |s.expiringToday| == 1 && |s.expiringSoon| == 1
  {
    var cal := UtcCalendar();
    var now := 19876 * MillisPerDay + MillisPerDay / 2;
    var g := SampleGroceries();
    TestsAtNoon(g);
    FilterOfFour(SoonTest(cal, now), g);
    FilterOfFour(TodayTest(cal, now), g);
    FilterOfFour(ExpiredTest(cal, now), g);
  }
}

=== FILE: groceries.dfy ===
/**
  The grocery record every component shares, and the day arithmetic on
  millisecond timestamps that the pantry and the dashboard both use.
 */
module Groceries {

  datatype Option<T> = None | Some(value: T)

  /** A pantry entry. Every field is text, as in the form that creates it;
      the two dates are `YYYY-MM-DD` strings. */
  datatype Item = Item(
    name: string,
    category: string,
    quantity: string,
    expirationDate: string,
    purchaseDate: string)

  /** The date library the components call, taken as a parameter:
      `parse` is `new Date(text).getTime()`, `None` standing for an Invalid
      Date (NaN); `dayOf` numbers the local calendar day that a timestamp
      falls on, so `dayOf(a) == dayOf(b)` is `a.toDateString() === b.toDateString()`. */
  datatype Calendar = Calendar(parse: string -> Option<int>, dayOf: int -> int)

  /** `1000 * 60 * 60 * 24` */
  const MillisPerDay: int := 1000 * 60 * 60 * 24

  /** `Math.ceil((exp - now) / MillisPerDay)`: the number of whole or partial
      days from `now` to `exp`. */
  function DiffDays(exp: int, now: int): (d: int)
    ensures (d - 1) * MillisPerDay < exp - now <= d * MillisPerDay
  {
    -((now - exp) / MillisPerDay)
  }

  /** The day difference never decreases as the expiration moves later. */
  lemma DiffDaysMonotone(exp1: int, exp2: int, now: int)
    requires exp1 <= exp2
    ensures DiffDays(exp1, now) <= DiffDays(exp2, now)
  {
  }

  /** An expiration up to one day in the past counts as zero days away, and
      one up to one day ahead as a single day: the ceiling rounds up. */
  lemma DiffDaysWithinADay(exp: int, now: int)
    ensures -MillisPerDay < exp - now <= 0 ==> DiffDays(exp, now) == 0
    ensures 0 < exp - now <= MillisPerDay ==> DiffDays(exp, now) == 1
  {
  }
}

=== FILE: grocery_form.dfy ===
/**
  The add/edit form: loading `initialData` into the five fields, the submit
  guard, and the reset after a successful submit.
 */
module GroceryForm {
  import opened Groceries
  import opened Sequences

  /** The choices of the category drop-down, in display order. */
  const Categories: seq<string> := [
    "Fruits", "Vegetables", "Dairy", "Meat", "Seafood", "Grains",
    "Pantry", "Frozen", "Beverages", "Snacks", "Other"
  ]

  /** The category choices are eleven distinct names, "Fruits" first and
      "Other" last. */
  lemma CategoriesAreFixed()
    ensures |Categories| == 11 && NoDuplicates(Categories)
    ensures Categories[0] == "Fruits" && Categories[10] == "Other"
  {
  }

  /** The object a caller may pass as `initialData`. A field that is absent
      (undefined or null) is `None`; `index` is the extra field the pantry
      adds when it opens the form for editing. */
  datatype InitialData = InitialData(
    name: Option<string>,
    category: Option<string>,
    quantity: Option<string>,
    expirationDate: Option<string>,
    purchaseDate: Option<string>,
    index: Option<int>)

  /** JavaScript's `v || fallback` on a string field: absent and empty
      values are both falsy. */
  function OrElse(v: Option<string>, fallback: string): string
  {
    if v.Some? && v.value != "" then v.value else fallback
  }

  /** The cleared form. `today` is the date part of the current ISO
      timestamp, `new Date().toISOString().split('T')[0]`. */
  function EmptyForm(today: string): Item
  {
    Item("", "", "", "", today)
  }

  /** The effect that runs when `initialData` changes: a missing value
      leaves the form as it is, otherwise each field is copied, a falsy one
      becoming "" (or today's date for the purchase date). */
  function Load(form: Item, initialData: Option<InitialData>, today: string): (f: Item)
    ensures initialData.None? ==> f == form
    ensures initialData.Some? ==>
      var d := initialData.value;
      && (d.name.Some? && d.name.value != "" ==> f.name == d.name.value)
      && (d.name.None? || d.name.value == "" ==> f.name == "")
      && (d.category.Some? && d.category.value != "" ==> f.category == d.category.value)
      && (d.category.None? || d.category.value == "" ==> f.category == "")
      && (d.quantity.Some? && d.quantity.value != "" ==> f.quantity == d.quantity.value)
      && (d.quantity.None? || d.quantity.value == "" ==> f.quantity == "")
      && (d.expirationDate.Some? && d.expirationDate.value != "" ==> f.expirationDate == d.expirationDate.value)
      && (d.expirationDate.None? || d.expirationDate.value == "" ==> f.expirationDate == "")
      && (d.purchaseDate.Some? && d.purchaseDate.value != "" ==> f.purchaseDate == d.purchaseDate.value)
      && (d.purchaseDate.None? || d.purchaseDate.value == "" ==> f.purchaseDate == today)
  {
    match initialData
    case None => form
    case Some(d) =>
      Item(
        OrElse(d.name, ""),
        OrElse(d.category, ""),
        OrElse(d.quantity, ""),
        OrElse(d.expirationDate, ""),
        OrElse(d.purchaseDate, today))
  }

  /** `initialData` describing an existing item, as the pantry builds it
      with `{ ...item, index }`. */
  function FromItem(item: Item, index: int): InitialData
  {
    InitialData(Some(item.name), Some(item.category), Some(item.quantity),
                Some(item.expirationDate), Some(item.purchaseDate), Some(index))
  }

  /** Loading an existing item reproduces it field for field, the `index`
      being dropped; only an empty purchase date is replaced by today. */
  lemma LoadItemRoundTrip(form: Item, item: Item, index: int, today: string)
    ensures item.purchaseDate != "" ==> Load(form, Some(FromItem(item, index)), today) == item
    ensures item.purchaseDate == "" ==>
              Load(form, Some(FromItem(item, index)), today) == item.(purchaseDate := today)
  {
  }

  /** An object with no fields loads as the cleared form. */
  lemma LoadNothingIsEmpty(form: Item, today: string)
    ensures Load(form, Some(InitialData(None, None, None, None, None, None)), today)
            == EmptyForm(today)
  {
  }

  /** The three required fields are filled in; quantity and purchase date
      may be empty. */
  predicate Complete(f: Item)
  {
    f.name != "" && f.category != "" && f.expirationDate != ""
  }

  /** What a submit does: the record handed to `onSave`, if any, and the
      form afterwards. */
  datatype Submission = Submission(saved: Option<Item>, form: Item)

  /** `handleSubmit`: hand the form to `onSave` and clear it when the three
      required fields are present, otherwise do nothing. */
  function Submit(form: Item, today: string): (r: Submission)
    ensures r.saved.Some? <==> form.name != "" && form.category != "" && form.expirationDate != ""
    ensures r.saved.Some? ==> r.saved.value == form
    ensures r.saved.Some? ==> r.form.name == "" && r.form.category == "" && r.form.quantity == ""
                              && r.form.expirationDate == "" && r.form.purchaseDate == today
    ensures r.saved.None? ==> r.form == form
  {
    if Complete(form) then Submission(Some(form), EmptyForm(today))
    else Submission(None, form)
  }

  /** Loading an existing complete item and submitting it unchanged hands
      back exactly that item and clears the form. */
  lemma EditUnchangedSavesSameItem(form: Item, item: Item, index: int, today: string)
    requires Complete(item) && item.purchaseDate != ""
    ensures Submit(Load(form, Some(FromItem(item, index)), today), today)
            == Submission(Some(item), EmptyForm(today))
  {
    LoadItemRoundTrip(form, item, index, today);
  }

  /** A submit of the cleared form is always refused: there is nothing to
      save until the required fields are typed in. */
  lemma EmptyFormIsRefused(today: string)
    ensures Submit(EmptyForm(today), today).saved.None?
  {
  }
}

=== FILE: pantry.dfy ===
/**
  The pantry view: freshness of each item, the search and category filter,
  the category drop-down, and the delete, edit and save transitions on the
  grocery list.
 */
module Pantry {
  import opened Groceries
  import opened Sequences
  import opened Text
  import GroceryForm

  /** The four statuses `getExpirationStatus` can return. */
  datatype Freshness = Expired | ExpiresToday | ExpiringSoon | Fresh

  /** Urgency order: expired first, fresh last. */
  function Rank(f: Freshness): nat
  {
    match f
    case Expired => 0
    case ExpiresToday => 1
    case ExpiringSoon => 2
    case Fresh => 3
  }

  /** `getExpirationStatus`: bucket the ceiling day difference between the
      expiration and `now`. An Invalid Date (`None`) makes the difference
      NaN, every comparison false, and so lands in the last branch. */
  function ExpirationStatus(exp: Option<int>, now: int): (f: Freshness)
    ensures exp.None? ==> f == Fresh
    ensures exp.Some? ==> (f == Expired <==> exp.value - now <= -MillisPerDay)
    ensures exp.Some? ==> (f == ExpiresToday <==> -MillisPerDay < exp.value - now <= 0)
    ensures exp.Some? ==> (f == ExpiringSoon <==> 0 < exp.value - now <= 3 * MillisPerDay)
    ensures exp.Some? ==> (f == Fresh <==> 3 * MillisPerDay < exp.value - now)
  {
    match exp
    case None => Fresh
    case Some(t) =>
      var diffDays := DiffDays(t, now);
      if diffDays < 0 then Expired
      else if diffDays == 0 then ExpiresToday
      else if diffDays <= 3 then ExpiringSoon
      else Fresh
  }

  /** The status is the bucket of the day difference: negative, zero,
      one to three, more than three. */
  lemma StatusByDiffDays(exp: int, now: int)
    ensures ExpirationStatus(Some(exp), now) == Expired <==> DiffDays(exp, now) < 0
    ensures ExpirationStatus(Some(exp), now) == ExpiresToday <==> DiffDays(exp, now) == 0
    ensures ExpirationStatus(Some(exp), now) == ExpiringSoon <==> 1 <= DiffDays(exp, now) <= 3
    ensures ExpirationStatus(Some(exp), now) == Fresh <==> DiffDays(exp, now) > 3
  {
  }

  /** An item that expired less than a full day ago is still "today", not
      "expired": the ceiling rounds the negative fraction up to zero. */
  lemma LessThanADayPastIsToday(exp: int, now: int)
    requires now - MillisPerDay < exp <= now
    ensures ExpirationStatus(Some(exp), now) == ExpiresToday
  {
  }

  /** For a fixed `now`, a later expiration never gives a more urgent status. */
  lemma StatusMonotone(exp1: int, exp2: int, now: int)
    requires exp1 <= exp2
    ensures Rank(ExpirationStatus(Some(exp1), now)) <= Rank(ExpirationStatus(Some(exp2), now))
  {
  }

  /** The filter predicate: the lower-cased name contains the lower-cased
      search term, and the category is the chosen one unless the choice is
      "all". */
  predicate Matches(item: Item, searchTerm: string, filterCategory: string)
  {
    && Contains(ToLower(item.name), ToLower(searchTerm))
    && (filterCategory == "all" || item.category == filterCategory)
  }

  /** `filteredGroceries`: the matching items, in list order, each as many
      times as it occurs in the list. */
  function FilteredGroceries(groceries: seq<Item>, searchTerm: string, filterCategory: string)
    : (r: seq<Item>)
    ensures IsSubsequence(r, groceries)
    ensures forall i :: 0 <= i < |r| ==> Matches(r[i], searchTerm, filterCategory)
    ensures forall i :: 0 <= i < |groceries| && Matches(groceries[i], searchTerm, filterCategory)
              ==> groceries[i] in r
    ensures forall x :: multiset(r)[x] ==
              if Matches(x, searchTerm, filterCategory) then multiset(groceries)[x] else 0
  {
    var p := (item: Item) => Matches(item, searchTerm, filterCategory);
    FilterIsSubsequence(p, groceries);
    FilterCounts(p, groceries);
    Filter(p, groceries)
  }

  /** With an empty search and the "all" category the whole list is shown,
      unchanged. */
  lemma UnfilteredShowsAll(groceries: seq<Item>)
    ensures FilteredGroceries(groceries, "", "all") == groceries
  {
    forall i | 0 <= i < |groceries|
      ensures Matches(groceries[i], "", "all")
    {
      ContainsEmpty(ToLower(groceries[i].name));
    }
    FilterKeepsAll((item: Item) => Matches(item, "", "all"), groceries);
  }

  /** The category of every item, in list order. */
  function CategoriesOf(groceries: seq<Item>): (r: seq<string>)
    ensures |r| == |groceries|
    ensures forall i :: 0 <= i < |groceries| ==> r[i] == groceries[i].category
  {
    seq(|groceries|, i requires 0 <= i < |groceries| => groceries[i].category)
  }

  /** `categories`: "all" followed by the distinct item categories, in the
      order a `Set` collects them, i.e. first appearance. */
  method CategoryOptions(groceries: seq<Item>) returns (options: seq<string>)
    ensures options == ["all"] + Dedup(CategoriesOf(groceries))
  {
    var cats := CategoriesOf(groceries);
    var seen: set<string> := {};
    var distinct: seq<string> := [];
    for k := 0 to |groceries|
      invariant distinct == Dedup(cats[..k])
      invariant forall c :: c in seen <==> c in distinct
    {
      var c := groceries[k].category;
      assert cats[..k + 1] == cats[..k] + [c];
      DedupSnoc(cats[..k], c);
      if c !in seen {
        distinct := distinct + [c];
        seen := seen + {c};
      }
    }
    assert cats[..|groceries|] == cats;
    options := ["all"] + distinct;
  }

  /** What the drop-down built by `CategoryOptions` offers: "all", then
      every item category once, in the order of first appearance. */
  lemma CategoryOptionsFacts(groceries: seq<Item>, options: seq<string>)
    requires options == ["all"] + Dedup(CategoriesOf(groceries))
    ensures |options| >= 1 && options[0] == "all"
    ensures options[1..] == Dedup(CategoriesOf(groceries))
    ensures NoDuplicates(options[1..])
    ensures forall i :: 0 <= i < |groceries| ==> groceries[i].category in options[1..]
    ensures forall i :: 1 <= i < |options| ==> options[i] in CategoriesOf(groceries)
    ensures forall i, j :: 1 <= i < j < |options| ==>
              FirstIndex(CategoriesOf(groceries), options[i])
              < FirstIndex(CategoriesOf(groceries), options[j])
    ensures (forall i :: 0 <= i < |groceries| ==> groceries[i].category != "all")
              ==> NoDuplicates(options)
  {
    var cats := CategoriesOf(groceries);
    assert options[1..] == Dedup(cats);
    OptionsInOrder(cats, options);
    forall i | 0 <= i < |groceries|
      ensures groceries[i].category in options[1..]
    {
      assert cats[i] == groceries[i].category;
    }
    if forall i :: 0 <= i < |groceries| ==> groceries[i].category != "all" {
      OptionsDistinct(cats, options);
    }
  }

  /** The options after "all" keep the order of first appearance. */
  lemma OptionsInOrder(cats: seq<string>, options: seq<string>)
    requires options == ["all"] + Dedup(cats)
    ensures forall i, j :: 1 <= i < j < |options| ==>
              FirstIndex(cats, options[i]) < FirstIndex(cats, options[j])
  {
    var d := Dedup(cats);
    assert options[1..] == d;
    DedupFirstAppearanceOrder(cats);
    forall i, j | 1 <= i < j < |options|
      ensures options[i] in cats && options[j] in cats
      ensures FirstIndex(cats, options[i]) < FirstIndex(cats, options[j])
    {
      assert options[i] == d[i - 1] && options[j] == d[j - 1];
    }
  }

  /** With no category literally named "all", no option repeats. */
  lemma OptionsDistinct(cats: seq<string>, options: seq<string>)
    requires options == ["all"] + Dedup(cats)
    requires forall i :: 0 <= i < |cats| ==> cats[i] != "all"
    ensures NoDuplicates(options)
  {
    var d := Dedup(cats);
    assert "all" !in cats;
    assert "all" !in d;
    assert NoDuplicates(d);
    forall i, j | 0 <= i < j < |options|
      ensures options[i] != options[j]
    {
      assert options[j] == d[j - 1];
      if i > 0 {
        assert options[i] == d[i - 1];
      }
    }
  }


  /** `handleDelete`: keep every position except `index`. An index outside
      the list (such as the -1 of a failed `indexOf`) removes nothing. */
  function DeleteAt(groceries: seq<Item>, index: int): (r: seq<Item>)
    ensures 0 <= index < |groceries| ==> r == groceries[..index] + groceries[index + 1..]
    ensures !(0 <= index < |groceries|) ==> r == groceries
  {
    if |groceries| == 0 then []
    else (if index == 0 then [] else [groceries[0]]) + DeleteAt(groceries[1..], index - 1)
  }

  /** `newGroceries[index] = newItem` on a copy of the list: a position
      inside the list is overwritten, the position just past the end
      extends it. */
  function AssignAt(groceries: seq<Item>, index: nat, newItem: Item): (r: seq<Item>)
    requires index <= |groceries|
    ensures index < |groceries| ==> |r| == |groceries| && r[index] == newItem
    ensures index < |groceries| ==> forall j :: 0 <= j < |r| && j != index ==> r[j] == groceries[j]
    ensures index == |groceries| ==> r == groceries + [newItem]
  {
    if index < |groceries| then groceries[index := newItem] else groceries + [newItem]
  }

  /** The item being edited together with the position it was found at
      (`{ ...item, index }`). */
  datatype EditTarget = EditTarget(item: Item, index: int)

  datatype PantryState = PantryState(
    groceries: seq<Item>,
    editingItem: Option<EditTarget>,
    showAddForm: bool)

  /** The index recorded for an edit still addresses the list or the slot
      just past its end. */
  predicate EditIndexUsable(s: PantryState)
  {
    s.editingItem.Some? ==> 0 <= s.editingItem.value.index <= |s.groceries|
  }

  /** The "Add Item" button: open an empty form. */
  function OpenAddForm(s: PantryState): (r: PantryState)
    ensures r.groceries == s.groceries && r.editingItem.None? && r.showAddForm
  {
    s.(editingItem := None, showAddForm := true)
  }

  /** `handleEdit`: remember the item and where it is, and open the form. */
  function HandleEdit(s: PantryState, index: int): (r: PantryState)
    requires 0 <= index < |s.groceries|
    ensures r.groceries == s.groceries && r.showAddForm
    ensures r.editingItem == Some(EditTarget(s.groceries[index], index))
    ensures EditIndexUsable(r)
  {
    s.(editingItem := Some(EditTarget(s.groceries[index], index)), showAddForm := true)
  }

  /** The form's `initialData`: the item being edited, if any. */
  function FormInitialData(s: PantryState): Option<GroceryForm.InitialData>
  {
    match s.editingItem
    case None => None
    case Some(t) => Some(GroceryForm.FromItem(t.item, t.index))
  }

  /** `handleDelete` on the state; the form stays as it is. */
  function HandleDelete(s: PantryState, index: int): (r: PantryState)
    ensures r.editingItem == s.editingItem && r.showAddForm == s.showAddForm
    ensures 0 <= index < |s.groceries| ==>
              r.groceries == s.groceries[..index] + s.groceries[index + 1..]
    ensures !(0 <= index < |s.groceries|) ==> r.groceries == s.groceries
  {
    s.(groceries := DeleteAt(s.groceries, index))
  }

  /** `handleSave`: in edit mode overwrite the recorded position, otherwise
      append; either way close the form and forget the edit. */
  function HandleSave(s: PantryState, newItem: Item): (r: PantryState)
    requires EditIndexUsable(s)
    ensures r.editingItem.None? && !r.showAddForm
    ensures s.editingItem.None? ==> r.groceries == s.groceries + [newItem]
    ensures s.editingItem.Some? && s.editingItem.value.index < |s.groceries| ==>
              var i := s.editingItem.value.index;
              && |r.groceries| == |s.groceries|
              && r.groceries[i] == newItem
              && forall j :: 0 <= j < |s.groceries| && j != i ==> r.groceries[j] == s.groceries[j]
    ensures s.editingItem.Some? && s.editingItem.value.index == |s.groceries| ==>
              r.groceries == s.groceries + [newItem]
  {
    var groceries :=
      match s.editingItem
      case None => s.groceries + [newItem]
      case Some(t) => AssignAt(s.groceries, t.index, newItem);
    PantryState(groceries, None, false)
  }

  /** The form's Cancel button. */
  function HandleCancel(s: PantryState): (r: PantryState)
    ensures r.groceries == s.groceries && r.editingItem.None? && !r.showAddForm
  {
    s.(editingItem := None, showAddForm := false)
  }

  /** Opening an item for editing and submitting the form untouched leaves
      the grocery list exactly as it was. */
  lemma EditWithoutChangesKeepsList(s: PantryState, index: int, form: Item, today: string)
    requires 0 <= index < |s.groceries|
    requires GroceryForm.Complete(s.groceries[index]) && s.groceries[index].purchaseDate != ""
    ensures
      var editing := HandleEdit(s, index);
      var loaded := GroceryForm.Load(form, FormInitialData(editing), today);
      var submitted := GroceryForm.Submit(loaded, today);
      && submitted.saved == Some(s.groceries[index])
      && HandleSave(editing, submitted.saved.value).groceries == s.groceries
  {
    var editing := HandleEdit(s, index);
    GroceryForm.EditUnchangedSavesSameItem(form, s.groceries[index], index, today);
    assert s.groceries[index := s.groceries[index]] == s.groceries;
  }

  /** Two deletes while the last of three items is open for editing leave
      the recorded position beyond the slot just past the end: the save
      would then write into a sparse array. */
  lemma TwoDeletesStrandEditIndex(s: PantryState)
    requires |s.groceries| == 3
    ensures !EditIndexUsable(HandleDelete(HandleDelete(HandleEdit(s, 2), 0), 0))
  {
  }

  /** The edit records a position, not the item: if an earlier item is
      deleted while the form is open, saving overwrites the item that moved
      into that position (or appends, if none did), and the item that was
      being edited stays in the list unchanged. */
  lemma StaleEditIndex(s: PantryState, editIndex: int, deleteIndex: int, newItem: Item)
    requires 0 <= deleteIndex < editIndex < |s.groceries|
    ensures
      var g := s.groceries;
      var after := HandleSave(HandleDelete(HandleEdit(s, editIndex), deleteIndex), newItem);
      && after.groceries[editIndex - 1] == g[editIndex]
      && (editIndex + 1 < |g| ==>
            after.groceries == g[..deleteIndex] + g[deleteIndex + 1..editIndex + 1] + [newItem] + g[editIndex + 2..])
      && (editIndex + 1 == |g| ==>
            after.groceries == g[..deleteIndex] + g[deleteIndex + 1..] + [newItem])
  {
    var g := s.groceries;
    var deleted := DeleteAt(g, deleteIndex);
    assert deleted == g[..deleteIndex] + g[deleteIndex + 1..];
    assert deleted[editIndex - 1] == g[editIndex];
    if editIndex + 1 < |g| {
      assert deleted[editIndex := newItem]
             == g[..deleteIndex] + g[deleteIndex + 1..editIndex + 1] + [newItem] + g[editIndex + 2..];
    }
  }
}

=== FILE: recipe_chat.dfy ===
/**
  The recipe assistant chat: the message log and what sending a message
  does to it.
 */
module RecipeChat {
  import opened Text

  datatype Sender = User | Bot

  datatype Message = Message(id: int, sender: Sender, text: string)

  /** The log and the text box. */
  datatype Chat = Chat(messages: seq<Message>, inputValue: string)

  /** The canned replies the bot picks from. */
  const BotResponses: seq<string> := [
    "Great suggestion! I can definitely modify that for you. Here's how we can adjust the recipe...",
    "That's a wonderful idea! Let me suggest an alternative approach that might work even better.",
    "I love that modification! Here's how to incorporate that change into the recipe.",
    "Perfect! That adjustment will make the dish even more delicious. Here's the updated step..."
  ]

  /** The greeting the chat opens with. */
  function Greeting(recipeName: string): string
  {
    "Hi! I'm here to help you customize the " + recipeName
    + " recipe. You can ask me to modify ingredients, cooking methods, or dietary preferences."
    + " What would you like to adjust?"
  }

  /** The chat as it opens: the bot's greeting with id 1 and an empty box. */
  function Open(recipeName: string): (c: Chat)
    ensures |c.messages| == 1 && c.messages[0].id == 1 && c.messages[0].sender == Bot
    ensures c.inputValue == ""
  {
    Chat([Message(1, Bot, Greeting(recipeName))], "")
  }

  /** Typing into the box, or clicking a suggested question. */
  function SetInput(c: Chat, text: string): (r: Chat)
    ensures r.messages == c.messages && r.inputValue == text
  {
    c.(inputValue := text)
  }

  /** `handleSendMessage`. A box holding nothing but white space sends
      nothing (`!inputValue.trim()`, which `Text.TrimEmptyIffBlank` shows
      is the same test as `IsBlank`). Otherwise the user's text, untrimmed, is logged with id
      `length + 1`, followed by a bot reply with id `length + 2`, and the box
      is cleared. `pick` is the reply `Math.floor(Math.random() * 4)`
      chose. */
  function SendMessage(c: Chat, pick: nat): (r: Chat)
    requires pick < |BotResponses|
    ensures IsBlank(c.inputValue) ==> r == c
    ensures !IsBlank(c.inputValue) ==>
              && |r.messages| == |c.messages| + 2
              && r.messages[..|c.messages|] == c.messages
              && r.messages[|c.messages|] == Message(|c.messages| + 1, User, c.inputValue)
              && r.messages[|c.messages| + 1].id == |c.messages| + 2
              && r.messages[|c.messages| + 1].sender == Bot
              && r.messages[|c.messages| + 1].text in BotResponses
              && r.inputValue == ""
  {
    if IsBlank(c.inputValue) then c
    else
      var n := |c.messages|;
      var userMessage := Message(n + 1, User, c.inputValue);
      var botMessage := Message(n + 2, Bot, BotResponses[pick]);
      Chat(c.messages + [userMessage, botMessage], "")
  }

  /** Every message's id is its 1-based position in the log. */
  predicate IdsArePositions(messages: seq<Message>)
  {
    forall i :: 0 <= i < |messages| ==> messages[i].id == i + 1
  }

  /** Sending keeps ids equal to positions, whatever the reply. */
  lemma SendKeepsIds(c: Chat, pick: nat)
    requires pick < |BotResponses|
    requires IdsArePositions(c.messages)
    ensures IdsArePositions(SendMessage(c, pick).messages)
  {
    var m := SendMessage(c, pick).messages;
    var n := |c.messages|;
    if !IsBlank(c.inputValue) {
      assert |m| == n + 2 && m[..n] == c.messages;
      assert m[n].id == n + 1 && m[n + 1].id == n + 2;
      forall i | 0 <= i < n
        ensures m[i].id == i + 1
      {
        assert m[i] == m[..n][i];
      }
    }
  }

  /** What the user can do: type, or send with the reply the random draw
      picks. */
  datatype Action = Type(text: string) | Send(pick: nat)

  predicate ValidAction(a: Action)
  {
    a.Send? ==> a.pick < |BotResponses|
  }

  function Perform(c: Chat, a: Action): Chat
    requires ValidAction(a)
  {
    match a
    case Type(text) => SetInput(c, text)
    case Send(pick) => SendMessage(c, pick)
  }

  function Run(c: Chat, actions: seq<Action>): Chat
    requires forall i :: 0 <= i < |actions| ==> ValidAction(actions[i])
    decreases |actions|
  {
    if |actions| == 0 then c else Run(Perform(c, actions[0]), actions[1..])
  }

  /** From the opening greeting, after any conversation, every message's id
      is its 1-based position, so ids are distinct and increasing. */
  lemma {:induction false} ConversationIdsArePositions(c: Chat, actions: seq<Action>)
    requires forall i :: 0 <= i < |actions| ==> ValidAction(actions[i])
    requires IdsArePositions(c.messages)
    ensures IdsArePositions(Run(c, actions).messages)
    decreases |actions|
  {
    if |actions| > 0 {
      var next := Perform(c, actions[0]);
      if actions[0].Send? {
        SendKeepsIds(c, actions[0].pick);
      }
      ConversationIdsArePositions(next, actions[1..]);
    }
  }

  /** The opening log already numbers its one message correctly. */
  lemma OpenIdsArePositions(recipeName: string)
    ensures IdsArePositions(Open(recipeName).messages)
  {
  }

  /** The log never shrinks and never rewrites a message already sent. */
  lemma {:induction false} ConversationOnlyAppends(c: Chat, actions: seq<Action>)
    requires forall i :: 0 <= i < |actions| ==> ValidAction(actions[i])
    ensures |c.messages| <= |Run(c, actions).messages|
    ensures Run(c, actions).messages[..|c.messages|] == c.messages
    decreases |actions|
  {
    if |actions| > 0 {
      var next := Perform(c, actions[0]);
      ConversationOnlyAppends(next, actions[1..]);
      var final := Run(next, actions[1..]).messages;
      assert final[..|c.messages|] == final[..|next.messages|][..|c.messages|];
    }
  }
}

=== FILE: recipes.dfy ===
/**
  The recipe screen: the availability badge of each recommendation and the
  "Generate Recipes" button.
 */
module Recipes {
  import opened Groceries

  /** The three badge colours of `getAvailabilityColor`. */
  datatype Badge = Green | Yellow | Orange

  /** The badge chosen for an exact percentage, as the branches read:
      exactly 100 is green, at least 70 yellow, anything else orange. */
  function BadgeForPercentage(percentage: real): Badge
  {
    if percentage == 100.0 then Green
    else if percentage >= 70.0 then Yellow
    else Orange
  }

  /** `getAvailabilityColor(available, total)` on whole counts, comparing
      `available / total * 100` by cross-multiplication. With `total == 0`
      the quotient is Infinity when something is available (yellow: not
      100, but at least 70) and NaN when nothing is (orange: every
      comparison false). */
  function AvailabilityColor(available: nat, total: nat): (b: Badge)
    ensures total > 0 ==> (b == Green <==> available == total)
    ensures total > 0 ==> (b == Yellow <==> available != total && 10 * available >= 7 * total)
    ensures total == 0 ==> (b == Yellow <==> available > 0)
    ensures total == 0 ==> (b == Orange <==> available == 0)
  {
    if total == 0 then (if available > 0 then Yellow else Orange)
    else if available == total then Green
    else if 100 * available >= 70 * total then Yellow
    else Orange
  }

  /** Scaling by a positive real keeps comparisons. */
  lemma ScaleCompare(x: real, y: real, t: real)
    requires t > 0.0
    ensures x >= y <==> x * t >= y * t
    ensures x == y <==> x * t == y * t
  {
    if x >= y {
      assert (x - y) * t >= 0.0;
    } else {
      assert (y - x) * t > 0.0;
    }
  }

  /** A percentage `p` of `a` out of `t` reaches `bound` exactly when
      `100 * a` reaches `bound * t`. */
  lemma PercentageAtLeast(a: real, t: real, p: real, bound: real)
    requires t > 0.0 && p * t == 100.0 * a
    ensures p >= bound <==> 100.0 * a >= bound * t
  {
    ScaleCompare(p, bound, t);
  }

  /** For a real recipe (`total > 0`) the integer rule picks the same badge
      as the percentage computed exactly. */
  lemma AvailabilityColorMatchesPercentage(available: nat, total: nat)
    requires total > 0
    ensures AvailabilityColor(available, total)
            == BadgeForPercentage((available as real / total as real) * 100.0)
  {
    var a, t := available as real, total as real;
    var q := a / t;
    var p := q * 100.0;
    assert q * t == a;
    assert p * t == 100.0 * a by {
      assert p * t == (q * t) * 100.0;
    }
    ScaleCompare(p, 100.0, t);
    assert p == 100.0 <==> available == total;
    PercentageAtLeast(a, t, p, 70.0);
    assert (100 * available) as real == 100.0 * a && (70 * total) as real == 70.0 * t;
    assert p >= 70.0 <==> 100 * available >= 70 * total;
  }

  /** For a fixed total, having more ingredients never turns a green or
      yellow badge orange. */
  lemma MoreAvailableNeverOrange(a1: nat, a2: nat, total: nat)
    requires a1 <= a2
    requires AvailabilityColor(a1, total) != Orange
    ensures AvailabilityColor(a2, total) != Orange
  {
  }

  /** The three recipes the generator hands back show 3/4 (yellow), 2/4
      (orange) and 4/4 (green). */
  lemma SampleRecipeBadges()
    ensures AvailabilityColor(3, 4) == Yellow
    ensures AvailabilityColor(2, 4) == Orange
    ensures AvailabilityColor(4, 4) == Green
  {
  }

  /** A recommendation as the generator delivers it; `availableIngredients`
      and `totalIngredients` come with the data. */
  datatype Recipe = Recipe(
    id: int,
    name: string,
    ingredients: seq<string>,
    availableIngredients: nat,
    totalIngredients: nat,
    instructions: seq<string>)

  datatype RecipesState = RecipesState(
    recommendations: seq<Recipe>,
    isGenerating: bool)

  /** The button is enabled unless a generation is running or the pantry
      is empty (`disabled={isGenerating || groceries.length === 0}`). */
  predicate CanGenerate(s: RecipesState, groceries: seq<Item>)
  {
    !s.isGenerating && |groceries| > 0
  }

  /** Pressing "Generate Recipes": a disabled button does nothing. */
  function PressGenerate(s: RecipesState, groceries: seq<Item>): (r: RecipesState)
    ensures r.recommendations == s.recommendations
    ensures r.isGenerating <==> s.isGenerating || |groceries| > 0
    ensures s.isGenerating || |groceries| == 0 ==> r == s
  {
    if CanGenerate(s, groceries) then s.(isGenerating := true) else s
  }

  /** The generator's delivery: the recipes replace the list in the order
      given, and the button is enabled again. */
  function Deliver(s: RecipesState, recipes: seq<Recipe>): (r: RecipesState)
    ensures r.recommendations == recipes && !r.isGenerating
  {
    RecipesState(recipes, false)
  }

  /** The badges of the recommendations, in list order. */
  function Badges(s: RecipesState): (r: seq<Badge>)
    ensures |r| == |s.recommendations|
    ensures forall i :: 0 <= i < |r| ==>
              r[i] == AvailabilityColor(s.recommendations[i].availableIngredients,
                                        s.recommendations[i].totalIngredients)
  {
    seq(|s.recommendations|, i requires 0 <= i < |s.recommendations| =>
      AvailabilityColor(s.recommendations[i].availableIngredients,
                        s.recommendations[i].totalIngredients))
  }
}

=== FILE: sequences.dfy ===
/**
  Sequence helpers shared by the components: the behaviour of JavaScript's
  `Array.prototype.filter` and of collecting values into a `Set` (which keeps
  first-insertion order), with the facts the components rely on.
 */
module Sequences {

  /** `a` can be obtained from `b` by deleting elements: `a` keeps `b`'s order. */
  predicate IsSubsequence<T(==)>(a: seq<T>, b: seq<T>)
    decreases |b|
  {
    if |a| == 0 then true
    else if |b| == 0 then false
    else (a[0] == b[0] && IsSubsequence(a[1..], b[1..])) || IsSubsequence(a, b[1..])
  }

  /** No value occurs twice. */
  predicate NoDuplicates<T(==)>(s: seq<T>)
  {
    forall i, j :: 0 <= i < j < |s| ==> s[i] != s[j]
  }

  /** The position of the first occurrence of the value `x`. */
  function FirstIndex<T(==)>(s: seq<T>, x: T): (i: nat)
    requires x in s
    ensures i < |s| && s[i] == x
    ensures forall j :: 0 <= j < i ==> s[j] != x
  {
    if s[0] == x then 0 else 1 + FirstIndex(s[1..], x)
  }

  /** The elements of `s` that satisfy `p`, in their original order. */
  function Filter<T>(p: T -> bool, s: seq<T>): (r: seq<T>)
    ensures |r| <= |s|
    ensures forall i :: 0 <= i < |r| ==> p(r[i])
    ensures forall i :: 0 <= i < |r| ==> r[i] in s
    ensures forall i :: 0 <= i < |s| && p(s[i]) ==> s[i] in r
  {
    if |s| == 0 then []
    else if p(s[0]) then [s[0]] + Filter(p, s[1..])
    else Filter(p, s[1..])
  }

  /** One step of `Filter`: the head is kept or dropped, then the tail is filtered. */
  lemma FilterCons<T>(p: T -> bool, s: seq<T>)
    requires |s| > 0
    ensures Filter(p, s) == (if p(s[0]) then [s[0]] else []) + Filter(p, s[1..])
  {
  }

  /** How many elements of `s` satisfy `p`. */
  function Count<T>(p: T -> bool, s: seq<T>): nat
  {
    if |s| == 0 then 0 else (if p(s[0]) then 1 else 0) + Count(p, s[1..])
  }

  /** The length of a filtered list is the number of elements that pass. */
  lemma {:induction false} FilterLengthIsCount<T>(p: T -> bool, s: seq<T>)
    ensures |Filter(p, s)| == Count(p, s)
  {
    if |s| > 0 {
      FilterCons(p, s);
      FilterLengthIsCount(p, s[1..]);
    }
  }

  /** Filtering keeps the original order. */
  lemma {:induction false} FilterIsSubsequence<T>(p: T -> bool, s: seq<T>)
    ensures IsSubsequence(Filter(p, s), s)
  {
    if |s| > 0 {
      FilterIsSubsequence(p, s[1..]);
      var rest := Filter(p, s[1..]);
      if p(s[0]) {
        assert Filter(p, s) == [s[0]] + rest;
        assert ([s[0]] + rest)[1..] == rest;
      } else {
        SubsequenceOfTail(rest, s);
      }
    }
  }

  /** A subsequence of the tail is a subsequence of the whole. */
  lemma SubsequenceOfTail<T>(a: seq<T>, b: seq<T>)
    requires |b| > 0 && IsSubsequence(a, b[1..])
    ensures IsSubsequence(a, b)
  {
  }

  /** Filtering keeps every occurrence of a matching value and drops every
      occurrence of a non-matching one. */
  lemma {:induction false} FilterCounts<T>(p: T -> bool, s: seq<T>)
    ensures forall x :: multiset(Filter(p, s))[x] == if p(x) then multiset(s)[x] else 0
  {
    if |s| > 0 {
      FilterCounts(p, s[1..]);
      assert s == [s[0]] + s[1..];
      assert multiset(s) == multiset{s[0]} + multiset(s[1..]);
    }
  }

  /** When every element matches, filtering changes nothing. */
  lemma {:induction false} FilterKeepsAll<T>(p: T -> bool, s: seq<T>)
    requires forall i :: 0 <= i < |s| ==> p(s[i])
    ensures Filter(p, s) == s
  {
    if |s| > 0 {
      FilterKeepsAll(p, s[1..]);
      assert s == [s[0]] + s[1..];
    }
  }

  /** Two filters whose predicates never hold together pick at most as many
      elements between them as the sequence has. */
  lemma {:induction false} FilterDisjointLengths<T>(p: T -> bool, q: T -> bool, s: seq<T>)
    requires forall i :: 0 <= i < |s| ==> !(p(s[i]) && q(s[i]))
    ensures |Filter(p, s)| + |Filter(q, s)| <= |s|
  {
    if |s| > 0 {
      FilterDisjointLengths(p, q, s[1..]);
    }
  }

  /** The distinct values of `s` in order of first appearance: what iterating
      over `new Set(s)` yields. */
  function Dedup<T(==)>(s: seq<T>): (r: seq<T>)
    ensures NoDuplicates(r)
    ensures forall i :: 0 <= i < |r| ==> r[i] in s
    ensures forall i :: 0 <= i < |s| ==> s[i] in r
  {
    if |s| == 0 then []
    else
      var d := Dedup(s[..|s| - 1]);
      var last := s[|s| - 1];
      assert s == s[..|s| - 1] + [last];
      if last in d then d else d + [last]
  }

  /** Extending the input by one value extends `Dedup` by it when it is new. */
  lemma DedupSnoc<T>(s: seq<T>, x: T)
    ensures Dedup(s + [x]) == if x in Dedup(s) then Dedup(s) else Dedup(s) + [x]
  {
    assert (s + [x])[..|s|] == s;
  }

  /** The first occurrence of a value in a prefix is its first occurrence overall. */
  lemma {:induction false} FirstIndexInPrefix<T>(s: seq<T>, n: nat, x: T)
    requires n <= |s| && x in s[..n]
    ensures x in s && FirstIndex(s, x) == FirstIndex(s[..n], x)
  {
    var k := FirstIndex(s[..n], x);
    assert s[k] == x;
    var i := FirstIndex(s, x);
    assert i <= k;
    assert s[..n][i] == s[i];
  }

  /** `Dedup` lists values in the order of their first appearance in `s`. */
  lemma {:induction false} DedupFirstAppearanceOrder<T>(s: seq<T>)
    ensures forall i, j :: 0 <= i < j < |Dedup(s)| ==>
              FirstIndex(s, Dedup(s)[i]) < FirstIndex(s, Dedup(s)[j])
  {
    if |s| > 0 {
      var n := |s| - 1;
      var p := s[..n];
      var d := Dedup(p);
      var last := s[n];
      var r := Dedup(s);
      DedupFirstAppearanceOrder(p);
      forall i, j | 0 <= i < j < |r|
        ensures FirstIndex(s, r[i]) < FirstIndex(s, r[j])
      {
        FirstIndexInPrefix(s, n, r[i]);
        if j < |d| {
          FirstIndexInPrefix(s, n, r[j]);
        } else {
          assert r == d + [last] && r[j] == last;
          assert last !in p;
          assert FirstIndex(s, last) == n;
        }
      }
    }
  }
}

=== FILE: text.dfy ===
/**
  The string operations the components call: `toLowerCase`, `includes` and
  `trim`. Lower-casing covers the ASCII letters only; the white-space set of
  `trim` is the one ECMAScript defines (WhiteSpace and LineTerminator).
 */
module Text {

  /** ASCII lower-casing of one character. */
  function LowerChar(c: char): (r: char)
    ensures 'A' <= c <= 'Z' ==> 'a' <= r <= 'z' && r as int - c as int == 32
    ensures !('A' <= c <= 'Z') ==> r == c
  {
    if 'A' <= c <= 'Z' then (c as int + 32) as char else c
  }

  /** `s.toLowerCase()`, restricted to ASCII letters. */
  function ToLower(s: string): (r: string)
    ensures |r| == |s|
    ensures forall i :: 0 <= i < |s| ==> r[i] == LowerChar(s[i])
  {
    seq(|s|, i requires 0 <= i < |s| => LowerChar(s[i]))
  }

  /** `t` occurs in `s` starting at position `i`. */
  predicate OccursAt(s: string, t: string, i: int)
  {
    0 <= i && i + |t| <= |s| && s[i..i + |t|] == t
  }

  /** `s.includes(t)`: `t` occurs in `s` as a contiguous block. */
  predicate Contains(s: string, t: string)
  {
    exists i | 0 <= i <= |s| - |t| :: OccursAt(s, t, i)
  }

  /** Every string contains the empty string. */
  lemma ContainsEmpty(s: string)
    ensures Contains(s, "")
  {
    assert OccursAt(s, "", 0);
  }

  /** Lower-casing is idempotent, so a lower-cased term matches itself. */
  lemma ToLowerIdempotent(s: string)
    ensures ToLower(ToLower(s)) == ToLower(s)
  {
  }

  /** The characters `String.prototype.trim` removes: ECMAScript WhiteSpace
      (TAB, VT, FF, SP, NBSP, ZWNBSP and the space separators) and
      LineTerminator (LF, CR, LS, PS). */
  predicate IsSpace(c: char)
  {
    || c == '\t' || c == '\U{000B}' || c == '\U{000C}' || c == ' '
    || c == '\U{00A0}' || c == '\U{FEFF}' || c == '\U{1680}'
    || ('\U{2000}' <= c <= '\U{200A}')
    || c == '\U{202F}' || c == '\U{205F}' || c == '\U{3000}'
    || c == '\n' || c == '\r' || c == '\U{2028}' || c == '\U{2029}'
  }

  /** Every character of `s` is white space (vacuously true of ""). */
  predicate IsBlank(s: string)
  {
    forall i :: 0 <= i < |s| ==> IsSpace(s[i])
  }

  function TrimStart(s: string): (r: string)
    ensures |r| <= |s| && r == s[|s| - |r|..]
    ensures |r| > 0 ==> !IsSpace(r[0])
    ensures IsBlank(s[..|s| - |r|])
  {
    if |s| > 0 && IsSpace(s[0]) then TrimStart(s[1..]) else s
  }

  function TrimEnd(s: string): (r: string)
    ensures |r| <= |s| && r == s[..|r|]
    ensures |r| > 0 ==> !IsSpace(r[|r| - 1])
    ensures IsBlank(s[|r|..])
  {
    if |s| > 0 && IsSpace(s[|s| - 1]) then TrimEnd(s[..|s| - 1]) else s
  }

  /** `s.trim()`: `s` without leading and trailing white space. */
  function Trim(s: string): (r: string)
    ensures |r| > 0 ==> !IsSpace(r[0]) && !IsSpace(r[|r| - 1])
  {
    TrimEnd(TrimStart(s))
  }

  /** `s.trim()` is `s` with a blank prefix and a blank suffix cut off. */
  lemma TrimCutsBlankEnds(s: string)
    ensures var r := Trim(s);
      exists k :: 0 <= k && k + |r| <= |s| && r == s[k..k + |r|]
                  && IsBlank(s[..k]) && IsBlank(s[k + |r|..])
  {
    var t := TrimStart(s);
    var r := Trim(s);
    var k := |s| - |t|;
    assert r == s[k..k + |r|];
    assert s[k + |r|..] == t[|r|..];
  }

  /** `!s.trim()` holds exactly for the strings made of white space only. */
  lemma TrimEmptyIffBlank(s: string)
    ensures Trim(s) == "" <==> IsBlank(s)
  {
  }
}
